=== FILE: README.md ===
# Hint-point editor of the Segment Anything 2 web UI

This project models the hint-point editor of the web client's `App` component
(`frontend/src/App.tsx`) in Dafny and proves properties of it. The user drops an
image, clicks points on it as hints, and the client asks the segmentation service
for a mask after each click. The model covers:

- the editor state: the ordered point list, the optional selected index, the
  displayed file, the image id and the mask id. Each id is the data of the latest
  started upload (segment) call, absent until that call responds;
- every transition: image load, add point, select by marker or list entry, X/Y
  edit, delete, upload response, segment response;
- the two derived values: the payload of the segment request sent after an add,
  and the mask overlay URL.

Modules:

- `Optional` (`optional.dfy`): `Option` for `T | undefined` / `null`, and `Head` for `xs.at(0)`.
- `HintPoints` (`points.dfy`): the `HintPoint` record of `frontend/src/types.ts` (with integer coordinates), object-spread
  field updates, `Array.prototype.splice` with JavaScript's clamping of its arguments, and
  in-place index assignment on a copy.
- `Decimal` (`decimal.dfy`): how a template literal prints an integer id, with a strict reader
  that reads it back.
- `Segment` (`segment.dfy`): the segment request payload, the mask id taken from a response,
  and the mask URL with its reader.
- `Mutations` (`mutation.dfy`): what a `useMutation` hook of `@tanstack/react-query` shows the
  component. Each call becomes the hook's current call, and its data reads as absent until
  that call's own response arrives. The response to a superseded call never reaches the
  component. The image id and the mask id are the data of two such hooks
  (`frontend/src/App.tsx:34-35`, `56-57`). The hook's behaviour is library code, outside the
  component's source.
- `Editor` (`editor.dfy`): the state record, one pure function per transition, `Step` over
  events and `Run` over event sequences, and the lemmas about them.

`Step` returns `None` for an event the component offers no handler for:

- a click on the image or a marker while no image is shown;
- a list entry for a point that does not exist;
- an edit or delete while nothing is selected;
- any event at all in a state whose selection is out of range. Rendering such a state
  throws at `hintPoints[selectedPoint].x`, so the component is gone.

`Run` ignores such events.

The editor is modelled in two variants. `AsWritten` leaves the selection alone on an
image load, as the component does. `Corrected` also clears it (see Findings).

Behaviour of the component worth knowing:

- Only a click that adds a point sends a segment request. Deletes and edits send nothing.
- A delete always removes the selected point and clears the selection. There is no
  delete-by-index that shifts a surviving selection.
- An image load starts a new upload call, which drops the image id until it responds. It
  does not touch the segment hook, so the mask id is kept across loads. The first request
  for a new image chains the previous image's mask id (`Editor.LoadImageKeepsMask`). Until a
  new segment call starts, the overlay pairs the new image's id with that old mask id
  (`Editor.LoadImageOverlayPairsOldMask`).
- Responses carry no sequence numbers. The response to the latest started call of each
  hook wins, and the ids read as absent while that call is pending. A second add before
  the first one's response therefore sends `previous_mask_id: null`.

## Model

| member | source | states |
|---|---|---|
| Optional.Head | frontend/src/App.tsx:57 | `.at(0)` is defined exactly for a non-empty array and is then its first element |
| HintPoints.WithX | frontend/src/App.tsx:199-205 | the spread `{...p, x: v}` sets `x` to `v` and keeps `y` |
| HintPoints.WithY | frontend/src/App.tsx:216-222 | the spread `{...p, y: v}` sets `y` to `v` and keeps `x` |
| HintPoints.SpliceStart | frontend/src/App.tsx:233 | `splice` starts at `start` when it lies within the array, counts a negative start back from the end, and clamps to the array's bounds |
| HintPoints.SpliceCount | frontend/src/App.tsx:233 | `splice` removes `deleteCount` elements clamped to zero below and to the elements after its start above |
| HintPoints.Splice | frontend/src/App.tsx:233 | `splice` removes exactly the clamped count of elements at the clamped start: the prefix before the start is kept, the elements after the removed block follow it in order, and nothing is removed for a non-positive count or a start at or past the end |
| HintPoints.RemoveAt | frontend/src/App.tsx:232-234 | `splice(i, 1)` on a valid index shortens the list by one, keeps the points before `i` in place and shifts the ones after it down by one |
| HintPoints.RemoveAtInverse | frontend/src/App.tsx:233 | re-inserting the removed point at its index restores the original list |
| HintPoints.RemoveAtMultiset | frontend/src/App.tsx:233 | the remaining points are the original ones less exactly one copy of the removed point |
| HintPoints.UpdateAt | frontend/src/App.tsx:198-199 | assigning index `i` of a copy keeps the length, stores the new value at `i` and leaves every other index unchanged |
| Decimal.NatToDecimal | frontend/src/App.tsx:64 | a non-negative id prints as a non-empty run of decimal digits without a leading zero; 0 prints as `0` |
| Decimal.NatRoundTrip | frontend/src/App.tsx:64 | the decimal digits printed for a non-negative id read back as the same number |
| Decimal.IntToDecimal | frontend/src/App.tsx:64 | an id prints as digits without a leading zero (a lone `0` aside), preceded by a minus sign exactly when it is negative |
| Decimal.IntRoundTrip | frontend/src/App.tsx:64 | an id printed by a template literal, sign included, reads back as the same integer |
| Segment.RequestFor | frontend/src/App.tsx:140-147 | a request exists exactly when the image id is defined; it carries that id, the current mask id as `previous_mask_id` (null when absent) and the given points |
| Segment.MaskIdOf | frontend/src/App.tsx:56-57 | the mask id is defined exactly when the response array is non-empty, and is then its first element |
| Segment.MaskPath | frontend/src/App.tsx:64 | the template literal lies under `${apiUrl}/api/image/get_mask/`, followed by the two ids |
| Segment.MaskUrl | frontend/src/App.tsx:59-65 | the overlay URL is defined exactly when both the image id and the mask id are, and is then the get_mask path of the two |
| Segment.MaskUrlRoundTrip | frontend/src/App.tsx:64 | the mask URL can be read back into exactly the image id and mask id it was built from |
| Segment.MaskUrlInjective | frontend/src/App.tsx:59-65 | distinct (image id, mask id) pairs give distinct overlay URLs |
| Mutations.Start | frontend/src/App.tsx:50 | a new hook call (here `uploadImage`; `segmentImage` at line 141 alike) becomes the awaited current call, and the previous data reads as absent |
| Mutations.Resolve | frontend/src/App.tsx:34-35 | a response becomes the hook's data only if it answers the awaited call; any other response changes nothing |
| Mutations.Fail | frontend/src/App.tsx:34-35 | a failure of the awaited call settles the hook with no data; any other failure changes nothing |
| Mutations.LatestCallWins | frontend/src/App.tsx:56-57 | with two calls in flight, the data ends up as the later call's response in either arrival order |
| Editor.State.ImageId | frontend/src/App.tsx:35 | `imageIdResponse?.data`: the image id is present exactly when the upload hook holds data, and is that data |
| Editor.State.MaskId | frontend/src/App.tsx:57 | `maskIdResponse?.data.at(0)`: the mask id is present exactly when the segment hook holds a non-empty array, and is then its first element |
| Editor.Initial | frontend/src/App.tsx:24-34 | the mounted component starts with no points, no selection, no image shown, no image id and no mask id, and neither hook has been called |
| Editor.LoadImage | frontend/src/App.tsx:37-54 | an image load empties the point list and shows the dropped file (or nothing); a dropped file is uploaded by a new call, which drops the image id; the segment hook is untouched; as written the selection is kept, the corrected variant clears it |
| Editor.AddPoint | frontend/src/App.tsx:136-148 | an add appends the point after all unchanged earlier points and selects the old length; exactly when the image id is defined it starts a segment call for the new list and the current mask id, after which the mask id reads as absent |
| Editor.Select | frontend/src/App.tsx:162-165 | selecting an existing point sets the selection to it and changes nothing else |
| Editor.EditX | frontend/src/App.tsx:196-208 | an X edit changes only the selected point's `x`; the length, the other points, its `y`, the selection and both hooks are unchanged |
| Editor.EditY | frontend/src/App.tsx:213-225 | a Y edit changes only the selected point's `y`; the length, the other points, its `x`, the selection and both hooks are unchanged |
| Editor.Delete | frontend/src/App.tsx:230-237 | a delete removes exactly the selected point, shifts later points down by one, keeps earlier ones, clears the selection and keeps both hooks |
| Editor.UploadResolved | frontend/src/App.tsx:34-35 | the response to the awaited upload call becomes the image id; a response to a superseded call changes nothing; the hook's call count is kept, so a superseded call never becomes awaited again |
| Editor.UploadFailed | frontend/src/App.tsx:34-35 | a failed awaited upload leaves no image id; any other failure changes nothing; the call count is kept |
| Editor.SegmentResolved | frontend/src/App.tsx:56-57 | the response to the awaited segment call sets the mask id to its first element (none for an empty array); a response to a superseded call changes nothing; the hook's call count is kept, so a superseded call never becomes awaited again |
| Editor.SegmentFailed | frontend/src/App.tsx:56-57 | a failed awaited segment call leaves no mask id; any other failure changes nothing; the call count is kept |
| Editor.CurrentMaskUrl | frontend/src/App.tsx:59-65 | the component shows an overlay exactly when both ids are known |
| Editor.Step | frontend/src/App.tsx:119-242 | a handled event comes from a state whose selection is valid; no event other than an image click or a drop sends a request |
| Editor.Run | frontend/src/App.tsx:119-242 | the component over an event sequence: `Step` is applied event by event and events without a handler are skipped. Its contract records two facts of this encoding, not findings about the source: the only growth is the add's single append, so each event adds at most one point; and a state whose selection is out of range is returned as it is, which models the render error at line 195 unmounting the component |
| Editor.StepPreservesSelection | frontend/src/App.tsx:190-195 | every handled event except an as-written image load keeps "selection absent or a valid index" |
| Editor.RunPreservesSelection | frontend/src/App.tsx:190-236 | every corrected run, and every as-written run without an image load, keeps the selection valid, so the editor panel always renders |
| Editor.LoadImageBreaksSelection | frontend/src/App.tsx:43 | as written, loading or clearing the image while a point is selected leaves the selection past the end of the emptied list |
| Editor.DropClickDropBreaksSelection | frontend/src/App.tsx:37-54 | the run "drop an image, click once, drop another image" reaches an empty list with point 0 selected |
| Editor.SelectionByClickExists | frontend/src/App.tsx:178-186 | a marker or list click selects the clicked index, which exists in the unchanged list |
| Editor.OnlyAddSegments | frontend/src/App.tsx:140-148 | only an image click sends a segment request and only a drop sends an upload; selections, edits and deletes send nothing and leave both hooks alone |
| Editor.StepWithoutResponseInventsNoIds | frontend/src/App.tsx:34-57 | a single event other than a successful response never makes an id appear or change: new calls and failures only clear them |
| Editor.RunWithoutResponsesInventsNoIds | frontend/src/App.tsx:34-57 | in any run without a successful response, an id that is present at the end was already present, with the same value, at the start |
| Editor.AddSendsNewList | frontend/src/App.tsx:136-147 | the request after an add carries the old list with the new point appended, and the current mask id |
| Editor.SecondAddChainsNull | frontend/src/App.tsx:140-147 | a second add before the first one's response sends `previous_mask_id: null` |
| Editor.AddBeforeUploadSendsNothing | frontend/src/App.tsx:140 | after a drop, an add before the new upload's response sends no segment request |
| Editor.LoadImageKeepsMask | frontend/src/App.tsx:37-57 | after an image load and its upload response, the first add chains the mask id obtained before the load |
| Editor.LoadImageOverlayPairsOldMask | frontend/src/App.tsx:37-65 | after an image load and its upload response, the overlay URL pairs the new image id with the mask id obtained before the load |
| Editor.StaleSegmentResponseIgnored | frontend/src/App.tsx:56-65 | a response to a segment call other than the awaited one leaves the overlay URL unchanged |
| Editor.ResponseSetsOverlay | frontend/src/App.tsx:57-65 | after a non-empty response to the awaited segment call for a known image, the overlay URL names that image and the response's first mask |
| Editor.DeleteUndoesAdd | frontend/src/App.tsx:230-237 | deleting the point just added restores the previous list |
| Editor.DeleteRemovesSelected | frontend/src/App.tsx:231-236 | re-inserting the deleted point at its index restores the list, and the survivors are the original points less one copy of it |
| Editor.EditUndo | frontend/src/App.tsx:196-225 | typing the previous X (or Y) value back restores the whole state |
| Editor.EditsCommute | frontend/src/App.tsx:196-225 | X and Y edits of the selected point commute |

## Left out

- Pointer-to-image coordinate mapping (`frontend/src/App.tsx:126-134`) and marker placement
  (`frontend/src/App.tsx:159-160`): floating-point division and `Math.round` over DOM rectangles.
  Points are given as integers.
- `parseInt` of the X/Y text input (`frontend/src/App.tsx:202-204`, `219-221`), which can yield
  `NaN`, and fractional values of the number input: the new coordinate is an integer parameter.
- Object URL creation and revocation (`frontend/src/App.tsx:39-41`, `51`): browser resource handling.
  A displayed image is identified by its file.
- The `imageElement === null` guard (`frontend/src/App.tsx:124`, `152`): it depends on when React
  attaches the ref. The model treats the image as ready whenever it is shown.
- The network code of `frontend/src/queries/use-image-upload.ts` and `use-image-segment.ts`. Upload and
  segment calls become `Request` values numbered by hook call. Their outcomes become the `UploadDone`,
  `UploadError`, `SegmentDone` and `SegmentError` events, which may arrive in any order.
- What `frontend/src/queries/use-image-segment.ts:6-18` itself posts: it takes the image id and the
  points as hook arguments and always sends `previous_mask_id: undefined`, ignoring the payload the
  component passes to `mutate`. The model states the payload the component builds.
- Decimal.IntRoundTrip: ids are unbounded integers, so JavaScript's exponent notation for numbers of
  1e21 and above is not modelled.
- `backend/src/server.py` (model setup and a hello-world endpoint) and `ImagePlaceholder.tsx`: no editor logic.

## Findings

| source | as written | input that shows it | evidently intended | confidence | as-written member | corrected member |
|---|---|---|---|---|---|---|
| frontend/src/App.tsx:43 | `setImage` empties `hintPoints` but leaves `selectedPoint` as it was | drop an image, click once on it (point 0 becomes selected), drop another image: the list is empty with point 0 selected, and the render at line 195 reads `.x` of `hintPoints[0]`, which is `undefined` | clear the selection together with the points | high; not executed | Editor.DropClickDropBreaksSelection | Editor.RunPreservesSelection |

=== FILE: decimal.dfy ===
/** How a JavaScript template literal prints an integer id (`${n}`), and a parser
    that reads it back. Ids are modelled as unbounded integers, so the exponent
    notation JavaScript switches to at 1e21 is out of reach. */
module Decimal {
  import opened Optional

  predicate IsDigit(c: char) {
    '0' <= c <= '9'
  }

  predicate AllDigits(s: string) {
    forall i :: 0 <= i < |s| ==> IsDigit(s[i])
  }

  function DigitChar(d: nat): (c: char)
    requires d < 10
    ensures IsDigit(c)
  {
    ('0' as int + d) as char
  }

  function DigitValue(c: char): (d: nat)
    requires IsDigit(c)
    ensures d < 10 && DigitChar(d) == c
  {
    c as int - '0' as int
  }

  /** The shortest decimal spelling of `n`: at least one digit and nothing but digits. */
  function NatToDecimal(n: nat): (s: string)
    ensures |s| > 0 && AllDigits(s)
    ensures n > 0 ==> s[0] != '0'
    ensures n == 0 ==> s == "0"
    decreases n
  {
    if n < 10 then [DigitChar(n)] else NatToDecimal(n / 10) + [DigitChar(n % 10)]
  }

  /** The value of a string of decimal digits (the empty string reads as 0). */
  function DecimalToNat(s: string): nat
    requires AllDigits(s)
    decreases |s|
  {
    if |s| == 0 then 0 else DecimalToNat(s[..|s| - 1]) * 10 + DigitValue(s[|s| - 1])
  }

  /** Reading back what `NatToDecimal` printed gives the same number. */
  lemma {:induction false} NatRoundTrip(n: nat)
    ensures DecimalToNat(NatToDecimal(n)) == n
    decreases n
  {
    if n >= 10 {
      var s := NatToDecimal(n);
      assert s[..|s| - 1] == NatToDecimal(n / 10);
      NatRoundTrip(n / 10);
    }
  }

  /** `${n}` for an integer `n`: a minus sign for negative values, then the digits. */
  function IntToDecimal(n: int): (s: string)
    ensures |s| > 0
    ensures forall i :: 0 <= i < |s| ==> s[i] == '-' || IsDigit(s[i])
    ensures n < 0 <==> s[0] == '-'
    ensures var d := if n < 0 then s[1..] else s; |d| > 0 && AllDigits(d) && (|d| > 1 ==> d[0] != '0')
  {
    if n < 0 then "-" + NatToDecimal(-n) else NatToDecimal(n)
  }

  /** An optionally signed, non-empty run of decimal digits; anything else is rejected. */
  function ReadInt(s: string): (r: Option<int>)
    ensures r.Some? ==> |s| > 0
  {
    if |s| > 1 && s[0] == '-' && AllDigits(s[1..]) then
      Some(-(DecimalToNat(s[1..]) as int))
    else if |s| > 0 && AllDigits(s) then Some(DecimalToNat(s))
    else None
  }

  /** Reading back what `IntToDecimal` printed gives the same integer. */
  lemma IntRoundTrip(n: int)
    ensures ReadInt(IntToDecimal(n)) == Some(n)
  {
    var s := IntToDecimal(n);
    if n < 0 {
      assert s[1..] == NatToDecimal(-n);
      NatRoundTrip(-n);
    } else {
      NatRoundTrip(n);
    }
  }
}

=== FILE: editor.dfy ===
/** The hint-point editor of the `App` component: its state, each user action and
    service response as a pure transition, and what the transitions keep invariant. */
module Editor {
  import opened Optional
  import opened HintPoints
  import opened Segment
  import opened Mutations

  /** A dropped image file; the editor only cares which file it is, never its bytes. */
  type ImageFile = nat

  /** The component's state:
      - `points`: `hintPoints`, in the order they were placed;
      - `selected`: `selectedPoint`;
      - `shown`: the file behind `imageUrl`, if an image is displayed;
      - `upload`: the upload hook, whose data is the image id;
      - `segment`: the segment hook, whose data is the array of mask ids. */
  datatype State = State(
    points: seq<HintPoint>,
    selected: Option<nat>,
    shown: Option<ImageFile>,
    upload: Mutation<int>,
    segment: Mutation<seq<int>>)
  {
    /** `imageId`: the data of the upload hook, present only once an upload call has responded. */
    function ImageId(): (r: Option<int>)
      ensures r.Some? <==> upload.data.Some?
      ensures r.Some? ==> r.value == upload.data.value
    {
      upload.data
    }

    /** `maskId`: the first id in the data of the segment hook. */
    function MaskId(): (r: Option<int>)
      ensures r.Some? <==> segment.data.Some? && |segment.data.value| > 0
      ensures r.Some? ==> r.value == segment.data.value[0]
    {
      if segment.data.Some? then MaskIdOf(segment.data.value) else None
    }
  }

  /** The state of a freshly mounted component. */
  function Initial(): (s: State)
    ensures s.points == [] && s.selected.None? && s.shown.None?
    ensures s.ImageId().None? && s.MaskId().None?
    ensures s.upload.calls == 0 && !s.upload.pending && s.segment.calls == 0 && !s.segment.pending
  {
    State([], None, None, Idle(), Idle())
  }

  /** A request the editor sends to the service, with the number of the hook call it started. */
  datatype Request = Upload(call: nat, file: ImageFile) | Segmentation(call: nat, payload: SegmentRequest)

  /** A transition's new state and the request it sent, if any. */
  datatype Outcome = Outcome(state: State, sent: Option<Request>)

  /** How an image load treats the selection: `AsWritten` leaves it alone, as the
      component does; `Corrected` also clears it. */
  datatype Variant = AsWritten | Corrected

  /** The selection is absent or names a point that exists. The editor panel reads
      `hintPoints[selectedPoint]` whenever a point is selected, so this is exactly
      the condition under which the component renders. */
  predicate SelectionValid(s: State) {
    s.selected.None? || s.selected.value < |s.points|
  }

  /** Some point is selected and it exists: the editor panel is on screen. */
  predicate HasSelection(s: State) {
    s.selected.Some? && s.selected.value < |s.points|
  }

  /** `setImage(file)`: the point list is emptied; a dropped file is displayed and
      uploaded by a new upload call, which drops the previous image id; a missing
      file clears the display and calls nothing. Only `Corrected` clears the selection. */
  function LoadImage(v: Variant, s: State, file: Option<ImageFile>): (r: Outcome)
    ensures r.state.points == [] && r.state.shown == file
    ensures v == AsWritten ==> r.state.selected == s.selected
    ensures v == Corrected ==> r.state.selected.None?
    ensures r.state.segment == s.segment
    ensures file.None? ==> r.state.upload == s.upload && r.sent.None?
    ensures file.Some? ==>
      r.state.upload.calls == s.upload.calls + 1 && Awaits(r.state.upload, r.state.upload.calls) &&
      r.state.ImageId().None? && r.sent == Some(Upload(r.state.upload.calls, file.value))
  {
    var selected := if v == AsWritten then s.selected else None;
    var s' := s.(points := [], selected := selected, shown := file);
    if file.None? then Outcome(s', None)
    else
      var upload := Start(s.upload);
      Outcome(s'.(upload := upload), Some(Upload(upload.calls, file.value)))
  }

  /** A click on the displayed image: the point is appended and becomes the selection.
      When the image id is known, a new segment call sends the new list chained to the
      current mask id, and the mask id reads as absent until that call responds. */
  function AddPoint(s: State, p: HintPoint): (r: Outcome)
    ensures |r.state.points| == |s.points| + 1
    ensures r.state.points[..|s.points|] == s.points && r.state.points[|s.points|] == p
    ensures r.state.selected == Some(|s.points|)
    ensures r.state.shown == s.shown && r.state.upload == s.upload
    ensures s.ImageId().None? ==> r.state.segment == s.segment && r.sent.None?
    ensures s.ImageId().Some? ==>
      r.state.segment.calls == s.segment.calls + 1 && Awaits(r.state.segment, r.state.segment.calls) &&
      r.state.MaskId().None? &&
      r.sent == Some(Segmentation(r.state.segment.calls, SegmentRequest(s.ImageId().value, s.MaskId(), r.state.points)))
  {
    var points := s.points + [p];
    var s' := s.(points := points, selected := Some(|points| - 1));
    match RequestFor(s.ImageId(), s.MaskId(), points)
    case None => Outcome(s', None)
    case Some(req) =>
      var segment := Start(s.segment);
      Outcome(s'.(segment := segment), Some(Segmentation(segment.calls, req)))
  }

  /** A click on the marker or the list entry of point `i`. */
  function Select(s: State, i: nat): (r: State)
    requires i < |s.points|
    ensures r.selected == Some(i) && HasSelection(r)
    ensures r.points == s.points && r.shown == s.shown && r.upload == s.upload && r.segment == s.segment
  {
    s.(selected := Some(i))
  }

  /** A new value in the X field: only the selected point's `x` changes. */
  function EditX(s: State, v: int): (r: State)
    requires HasSelection(s)
    ensures |r.points| == |s.points|
    ensures r.points[s.selected.value].x == v && r.points[s.selected.value].y == s.points[s.selected.value].y
    ensures forall j :: 0 <= j < |s.points| && j != s.selected.value ==> r.points[j] == s.points[j]
    ensures r.selected == s.selected && r.shown == s.shown && r.upload == s.upload && r.segment == s.segment
  {
    var i := s.selected.value;
    s.(points := UpdateAt(s.points, i, WithX(s.points[i], v)))
  }

  /** A new value in the Y field: only the selected point's `y` changes. */
  function EditY(s: State, v: int): (r: State)
    requires HasSelection(s)
    ensures |r.points| == |s.points|
    ensures r.points[s.selected.value].y == v && r.points[s.selected.value].x == s.points[s.selected.value].x
    ensures forall j :: 0 <= j < |s.points| && j != s.selected.value ==> r.points[j] == s.points[j]
    ensures r.selected == s.selected && r.shown == s.shown && r.upload == s.upload && r.segment == s.segment
  {
    var i := s.selected.value;
    s.(points := UpdateAt(s.points, i, WithY(s.points[i], v)))
  }

  /** The Delete button: the selected point is spliced out and the selection cleared. */
  function Delete(s: State): (r: State)
    requires HasSelection(s)
    ensures |r.points| == |s.points| - 1
    ensures forall j :: 0 <= j < s.selected.value ==> r.points[j] == s.points[j]
    ensures forall j :: s.selected.value <= j < |r.points| ==> r.points[j] == s.points[j + 1]
    ensures r.selected.None?
    ensures r.shown == s.shown && r.upload == s.upload && r.segment == s.segment
  {
    s.(points := RemoveAt(s.points, s.selected.value), selected := None)
  }

  /** Upload call number `call` responds with an image id: it becomes the image id if
      that call is the one awaited; a response to a superseded call changes nothing. */
  function UploadResolved(s: State, call: nat, imageId: int): (r: State)
    ensures Awaits(s.upload, call) ==> r.ImageId() == Some(imageId) && !r.upload.pending
    ensures !Awaits(s.upload, call) ==> r == s
    ensures r.points == s.points && r.selected == s.selected && r.shown == s.shown && r.segment == s.segment
    ensures r.upload.calls == s.upload.calls
  {
    s.(upload := Resolve(s.upload, call, imageId))
  }

  /** Upload call number `call` fails: the hook settles with no image id if it awaited that call. */
  function UploadFailed(s: State, call: nat): (r: State)
    ensures Awaits(s.upload, call) ==> r.ImageId().None? && !r.upload.pending
    ensures !Awaits(s.upload, call) ==> r == s
    ensures r.points == s.points && r.selected == s.selected && r.shown == s.shown && r.segment == s.segment
    ensures r.upload.calls == s.upload.calls
  {
    s.(upload := Fail(s.upload, call))
  }

  /** Segment call number `call` responds: if it is the awaited call, the response's
      first id becomes the mask id (none for an empty array); otherwise nothing changes. */
  function SegmentResolved(s: State, call: nat, response: seq<int>): (r: State)
    ensures Awaits(s.segment, call) ==> (r.MaskId().Some? <==> |response| > 0) && !r.segment.pending
    ensures Awaits(s.segment, call) && |response| > 0 ==> r.MaskId() == Some(response[0])
    ensures !Awaits(s.segment, call) ==> r == s
    ensures r.points == s.points && r.selected == s.selected && r.shown == s.shown && r.upload == s.upload
    ensures r.segment.calls == s.segment.calls
  {
    s.(segment := Resolve(s.segment, call, response))
  }

  /** Segment call number `call` fails: the hook settles with no mask id if it awaited that call. */
  function SegmentFailed(s: State, call: nat): (r: State)
    ensures Awaits(s.segment, call) ==> r.MaskId().None? && !r.segment.pending
    ensures !Awaits(s.segment, call) ==> r == s
    ensures r.points == s.points && r.selected == s.selected && r.shown == s.shown && r.upload == s.upload
    ensures r.segment.calls == s.segment.calls
  {
    s.(segment := Fail(s.segment, call))
  }

  /** The overlay URL the component shows for a state. */
  function CurrentMaskUrl(apiUrl: string, s: State): (r: Option<string>)
    ensures r.Some? <==> s.ImageId().Some? && s.MaskId().Some?
  {
    MaskUrl(apiUrl, s.ImageId(), s.MaskId())
  }

  /** What can happen to the component: a user action, or the outcome of a hook call. */
  datatype Event =
    | Drop(files: seq<ImageFile>)
    | UploadDone(call: nat, imageId: int)
    | UploadError(call: nat)
    | ClickImage(p: HintPoint)
    | ClickMarker(i: int)
    | ClickEntry(i: int)
    | ChangeX(value: int)
    | ChangeY(value: int)
    | ClickDelete
    | SegmentDone(call: nat, response: seq<int>)
    | SegmentError(call: nat)

  /** One event. `None` when the component offers no handler for it: the image, its
      markers and the editor panel are only on screen under the conditions the JSX
      tests, list entries exist only for existing points, and a state whose selection
      is out of range fails to render, so nothing of it is left to act on. */
  function Step(v: Variant, s: State, e: Event): (r: Option<Outcome>)
    ensures r.Some? ==> SelectionValid(s)
    ensures r.Some? && !e.ClickImage? && !e.Drop? ==> r.value.sent.None?
  {
    if !SelectionValid(s) then None
    else
      match e
      case Drop(files) => Some(LoadImage(v, s, Head(files)))
      case UploadDone(call, id) => Some(Outcome(UploadResolved(s, call, id), None))
      case UploadError(call) => Some(Outcome(UploadFailed(s, call), None))
      case ClickImage(p) => if s.shown.Some? then Some(AddPoint(s, p)) else None
      case ClickMarker(i) =>
        if s.shown.Some? && 0 <= i < |s.points| then Some(Outcome(Select(s, i), None)) else None
      case ClickEntry(i) => if 0 <= i < |s.points| then Some(Outcome(Select(s, i), None)) else None
      case ChangeX(x) => if s.selected.Some? then Some(Outcome(EditX(s, x), None)) else None
      case ChangeY(y) => if s.selected.Some? then Some(Outcome(EditY(s, y), None)) else None
      case ClickDelete => if s.selected.Some? then Some(Outcome(Delete(s), None)) else None
      case SegmentDone(call, response) => Some(Outcome(SegmentResolved(s, call, response), None))
      case SegmentError(call) => Some(Outcome(SegmentFailed(s, call), None))
  }

  /** The state after a sequence of events; an event without a handler changes nothing.
      Each event adds at most one point, and a state that cannot render stays as it is:
      the crash at the editor panel unmounts the component. */
  function Run(v: Variant, s: State, es: seq<Event>): (r: State)
    ensures |r.points| <= |s.points| + |es|
    ensures !SelectionValid(s) ==> r == s
    decreases |es|
  {
    if |es| == 0 then s
    else
      match Step(v, s, es[0])
      case None => Run(v, s, es[1..])
      case Some(o) => Run(v, o.state, es[1..])
  }

  predicate NoDrop(es: seq<Event>) {
    forall k :: 0 <= k < |es| ==> !es[k].Drop?
  }

  // ---------------------------------------------------------------------------
  // The selection invariant

  /** Every event other than an image load keeps the selection valid, in both variants;
      with the correction, so does the image load. */
  lemma StepPreservesSelection(v: Variant, s: State, e: Event)
    requires SelectionValid(s)
    requires v == Corrected || !e.Drop?
    ensures Step(v, s, e).Some? ==> SelectionValid(Step(v, s, e).value.state)
  {
  }

  /** Any run of the corrected editor, and any run of the editor as written that loads
      no image, keeps the selection valid, so the editor panel always renders. */
  lemma {:induction false} RunPreservesSelection(v: Variant, s: State, es: seq<Event>)
    requires SelectionValid(s)
    requires v == Corrected || NoDrop(es)
    ensures SelectionValid(Run(v, s, es))
    decreases |es|
  {
    if |es| > 0 {
      StepPreservesSelection(v, s, es[0]);
      assert v == Corrected || NoDrop(es[1..]) by {
        if v == AsWritten {
          forall k | 0 <= k < |es[1..]|
            ensures !es[1..][k].Drop?
          {
            assert es[1..][k] == es[k + 1];
          }
        }
      }
      match Step(v, s, es[0])
      case None => RunPreservesSelection(v, s, es[1..]);
      case Some(o) => RunPreservesSelection(v, o.state, es[1..]);
    }
  }

  /** As written, loading an image (or clearing it) while a point is selected leaves the
      selection pointing past the now empty list. */
  lemma LoadImageBreaksSelection(s: State, file: Option<ImageFile>)
    requires s.selected.Some?
    ensures !SelectionValid(LoadImage(AsWritten, s, file).state)
  {
  }

  /** A concrete run that reaches it: drop an image, click once, drop another image. */
  lemma DropClickDropBreaksSelection(f: ImageFile, g: ImageFile, p: HintPoint)
    ensures Run(AsWritten, Initial(), [Drop([f]), ClickImage(p), Drop([g])]) ==
      State([], Some(0), Some(g), Mutation(2, true, None), Idle())
    ensures !SelectionValid(Run(AsWritten, Initial(), [Drop([f]), ClickImage(p), Drop([g])]))
  {
    var es := [Drop([f]), ClickImage(p), Drop([g])];
    var s1 := State([], None, Some(f), Mutation(1, true, None), Idle());
    var s2 := State([p], Some(0), Some(f), Mutation(1, true, None), Idle());
    assert Step(AsWritten, Initial(), es[0]) == Some(Outcome(s1, Some(Upload(1, f))));
    assert es[1..] == [ClickImage(p), Drop([g])];
    assert Step(AsWritten, s1, es[1]) == Some(Outcome(s2, None));
    assert es[1..][1..] == [Drop([g])];
    assert Run(AsWritten, s2, [Drop([g])]) == Run(AsWritten, State([], Some(0), Some(g), Mutation(2, true, None), Idle()), []);
  }

  /** Marker and list clicks select an index of the current list, the one clicked. */
  lemma SelectionByClickExists(v: Variant, s: State, e: Event)
    requires e.ClickMarker? || e.ClickEntry?
    requires Step(v, s, e).Some?
    ensures HasSelection(Step(v, s, e).value.state)
    ensures Step(v, s, e).value.state.selected.value == e.i
    ensures Step(v, s, e).value.state.points == s.points
  {
  }

  // ---------------------------------------------------------------------------
  // Requests and ids

  /** Only a click on the image sends a segment request, and only an image drop an upload;
      edits, deletes and selections send nothing and leave both hooks, hence both ids, alone. */
  lemma OnlyAddSegments(v: Variant, s: State, e: Event)
    requires Step(v, s, e).Some?
    ensures Step(v, s, e).value.sent.Some? && Step(v, s, e).value.sent.value.Segmentation? ==> e.ClickImage?
    ensures Step(v, s, e).value.sent.Some? && Step(v, s, e).value.sent.value.Upload? ==> e.Drop?
    ensures e.ChangeX? || e.ChangeY? || e.ClickDelete? || e.ClickMarker? || e.ClickEntry? ==>
      Step(v, s, e).value.sent.None? &&
      Step(v, s, e).value.state.upload == s.upload && Step(v, s, e).value.state.segment == s.segment
  {
  }

  /** A single event other than a successful response makes no id appear. */
  lemma StepWithoutResponseInventsNoIds(v: Variant, s: State, e: Event)
    requires !e.UploadDone? && !e.SegmentDone?
    ensures Step(v, s, e).Some? && Step(v, s, e).value.state.ImageId().Some? ==>
      Step(v, s, e).value.state.ImageId() == s.ImageId()
    ensures Step(v, s, e).Some? && Step(v, s, e).value.state.MaskId().Some? ==>
      Step(v, s, e).value.state.MaskId() == s.MaskId()
  {
  }

  /** With no successful response in a run, no id can appear that was not there before:
      new calls and failures only ever make the ids absent. */
  lemma {:induction false} RunWithoutResponsesInventsNoIds(v: Variant, s: State, es: seq<Event>)
    requires forall k :: 0 <= k < |es| ==> !es[k].UploadDone? && !es[k].SegmentDone?
    ensures Run(v, s, es).ImageId().Some? ==> Run(v, s, es).ImageId() == s.ImageId()
    ensures Run(v, s, es).MaskId().Some? ==> Run(v, s, es).MaskId() == s.MaskId()
    decreases |es|
  {
    if |es| > 0 {
      assert forall k :: 0 <= k < |es[1..]| ==> es[1..][k] == es[k + 1];
      var t := if Step(v, s, es[0]).Some? then Step(v, s, es[0]).value.state else s;
      StepWithoutResponseInventsNoIds(v, s, es[0]);
      assert Run(v, s, es) == Run(v, t, es[1..]);
      RunWithoutResponsesInventsNoIds(v, t, es[1..]);
    }
  }

  /** The segment request after an add carries exactly the new list, ending in the
      clicked point, and chains the mask id the component currently holds. */
  lemma AddSendsNewList(s: State, p: HintPoint)
    requires s.ImageId().Some?
    ensures var o := AddPoint(s, p);
      o.sent.Some? && o.sent.value.payload.imageId == s.ImageId().value &&
      o.sent.value.payload.points == s.points + [p] &&
      o.sent.value.payload.previousMaskId == s.MaskId()
  {
    var o := AddPoint(s, p);
    assert o.state.points == s.points + [p];
  }

  /** A second add before the first one's response chains no mask id (`null`): the first
      add's call dropped the mask id it had chained. */
  lemma SecondAddChainsNull(s: State, p: HintPoint, q: HintPoint)
    requires s.ImageId().Some?
    ensures AddPoint(AddPoint(s, p).state, q).sent.Some?
    ensures AddPoint(AddPoint(s, p).state, q).sent.value.payload.previousMaskId.None?
  {
  }

  /** After a drop, an add before the new upload's response sends nothing: the previous
      image's id was dropped with the new upload call. */
  lemma AddBeforeUploadSendsNothing(v: Variant, s: State, f: ImageFile, p: HintPoint)
    ensures AddPoint(LoadImage(v, s, Some(f)).state, p).sent.None?
  {
  }

  /** Image loads do not reset the mask id: once the new upload responds, the first add
      for the new image still chains the mask id obtained for the previous one. */
  lemma LoadImageKeepsMask(v: Variant, s: State, f: ImageFile, id: int, p: HintPoint)
    ensures var s1 := UploadResolved(LoadImage(v, s, Some(f)).state, s.upload.calls + 1, id);
      AddPoint(s1, p).sent == Some(Segmentation(s.segment.calls + 1, SegmentRequest(id, s.MaskId(), [p])))
  {
  }

  /** Because an image load keeps the segment hook, the overlay shown once the new upload
      responds pairs the new image's id with the mask id obtained for the previous image. */
  lemma LoadImageOverlayPairsOldMask(apiUrl: string, v: Variant, s: State, f: ImageFile, id: int)
    requires s.MaskId().Some?
    ensures var s1 := UploadResolved(LoadImage(v, s, Some(f)).state, s.upload.calls + 1, id);
      CurrentMaskUrl(apiUrl, s1) == Some(MaskPath(apiUrl, id, s.MaskId().value))
  {
  }

  /** A response to a segment call other than the awaited one never changes what is shown. */
  lemma StaleSegmentResponseIgnored(apiUrl: string, s: State, call: nat, response: seq<int>)
    requires !Awaits(s.segment, call)
    ensures CurrentMaskUrl(apiUrl, SegmentResolved(s, call, response)) == CurrentMaskUrl(apiUrl, s)
  {
  }

  /** After a non-empty response to the awaited segment call for a known image, the
      overlay shows that response's first mask of that image. */
  lemma ResponseSetsOverlay(apiUrl: string, s: State, call: nat, response: seq<int>)
    requires s.ImageId().Some? && Awaits(s.segment, call) && |response| > 0
    ensures CurrentMaskUrl(apiUrl, SegmentResolved(s, call, response)) ==
      Some(MaskPath(apiUrl, s.ImageId().value, response[0]))
  {
  }

  // ---------------------------------------------------------------------------
  // Partners of the point-list edits

  /** Deleting right after an add takes the list back to what it was. */
  lemma DeleteUndoesAdd(s: State, p: HintPoint)
    ensures HasSelection(AddPoint(s, p).state)
    ensures Delete(AddPoint(s, p).state).points == s.points
  {
    var t := AddPoint(s, p).state;
    assert t.points == s.points + [p];
    assert Delete(t).points == t.points[..|s.points|];
  }

  /** Deleting and re-inserting the removed point at its index restores the list, and
      the deleted points are exactly the original ones less one copy of the selected point. */
  lemma DeleteRemovesSelected(s: State)
    requires HasSelection(s)
    ensures InsertAt(Delete(s).points, s.selected.value, s.points[s.selected.value]) == s.points
    ensures multiset(Delete(s).points) + multiset{s.points[s.selected.value]} == multiset(s.points)
  {
    RemoveAtInverse(s.points, s.selected.value);
    RemoveAtMultiset(s.points, s.selected.value);
  }

  /** Typing the old X value back undoes an X edit; likewise for Y. */
  lemma EditUndo(s: State, v: int)
    requires HasSelection(s)
    ensures EditX(EditX(s, v), s.points[s.selected.value].x) == s
    ensures EditY(EditY(s, v), s.points[s.selected.value].y) == s
  {
    var i := s.selected.value;
    assert EditX(EditX(s, v), s.points[i].x).points == s.points;
    assert EditY(EditY(s, v), s.points[i].y).points == s.points;
  }

  /** X and Y edits touch different fields, so their order does not matter. */
  lemma EditsCommute(s: State, x: int, y: int)
    requires HasSelection(s)
    ensures EditY(EditX(s, x), y) == EditX(EditY(s, y), x)
  {
    assert EditY(EditX(s, x), y).points == EditX(EditY(s, y), x).points;
  }
}

=== FILE: mutation.dfy ===
/** What a `useMutation` hook exposes to the component that calls it. Each `mutate`
    call becomes the hook's current call: its data reads as absent until that call's
    own response arrives, and a response to a call that has since been superseded
    never reaches the component. */
module Mutations {
  import opened Optional

  /** `calls` counts the calls started so far, so the current call is number `calls`;
      `pending` is true until the current call settles; `data` is its response. */
  datatype Mutation<T> = Mutation(calls: nat, pending: bool, data: Option<T>)

  /** The hook before its first call. */
  function Idle<T>(): Mutation<T> {
    Mutation(0, false, None)
  }

  /** The hook is waiting for the response to call number `call`: that call is the
      current one and has not settled. */
  predicate Awaits<T>(m: Mutation<T>, call: nat) {
    m.pending && call == m.calls
  }

  /** `mutate(...)`: a new current call starts and the previous data is dropped. */
  function Start<T>(m: Mutation<T>): (r: Mutation<T>)
    ensures r.calls == m.calls + 1 && Awaits(r, r.calls) && r.data.None?
  {
    Mutation(m.calls + 1, true, None)
  }

  /** Call number `call` responds with `value`: it becomes the data only if the hook
      is still waiting for that very call; any other response changes nothing. */
  function Resolve<T>(m: Mutation<T>, call: nat, value: T): (r: Mutation<T>)
    ensures Awaits(m, call) ==> r.calls == m.calls && !r.pending && r.data == Some(value)
    ensures !Awaits(m, call) ==> r == m
  {
    if Awaits(m, call) then Mutation(m.calls, false, Some(value)) else m
  }

  /** Call number `call` fails: if it is the awaited call, the hook settles with no
      data; any other failure changes nothing. */
  function Fail<T>(m: Mutation<T>, call: nat): (r: Mutation<T>)
    ensures Awaits(m, call) ==> r.calls == m.calls && !r.pending && r.data.None?
    ensures !Awaits(m, call) ==> r == m
  {
    if Awaits(m, call) then Mutation(m.calls, false, None) else m
  }

  /** Two calls in flight: whichever order their responses arrive in, the data ends up
      being the response to the later call. */
  lemma LatestCallWins<T>(m: Mutation<T>, v1: T, v2: T)
    ensures var m1 := Start(m); var m2 := Start(m1);
      Resolve(Resolve(m2, m1.calls, v1), m2.calls, v2).data == Some(v2) &&
      Resolve(Resolve(m2, m2.calls, v2), m1.calls, v1).data == Some(v2)
  {
  }
}

=== FILE: optional.dfy ===
/** Optional values, as TypeScript's `T | undefined` (and `T | null` on the wire). */
module Optional {

  datatype Option<+T> = None | Some(value: T)

  /** `xs.at(0)`: the first element of an array, or `undefined` when it is empty. */
  function Head<T>(xs: seq<T>): (r: Option<T>)
    ensures r.Some? <==> |xs| > 0
    ensures r.Some? ==> r.value == xs[0]
  {
    if |xs| == 0 then None else Some(xs[0])
  }
}

=== FILE: points.dfy ===
/** Hint points and the array operations the editor applies to the point list. */
module HintPoints {

  /** A hint point in image-pixel coordinates, already rounded to integers. */
  datatype HintPoint = HintPoint(x: int, y: int)

  /** The point with its `x` replaced: the object spread `{ ...p, x: v }`. */
  function WithX(p: HintPoint, v: int): (r: HintPoint)
    ensures r.x == v && r.y == p.y
  {
    p.(x := v)
  }

  /** The point with its `y` replaced: the object spread `{ ...p, y: v }`. */
  function WithY(p: HintPoint, v: int): (r: HintPoint)
    ensures r.y == v && r.x == p.x
  {
    p.(y := v)
  }

  /** Where `Array.prototype.splice` starts on an array of length `len`:
      a negative start counts back from the end, and the result is clamped to `[0, len]`. */
  function SpliceStart(len: nat, start: int): (k: nat)
    ensures k <= len
    ensures 0 <= start <= len ==> k == start
    ensures start > len ==> k == len
    ensures start < 0 && len + start >= 0 ==> k == len + start
    ensures len + start < 0 ==> k == 0
  {
    if start < 0 then (if len + start < 0 then 0 else len + start)
    else if start > len then len
    else start
  }

  /** How many elements `splice` removes when `available` follow its start:
      `deleteCount` clamped to `[0, available]`. */
  function SpliceCount(available: nat, deleteCount: int): (n: nat)
    ensures n <= available
    ensures 0 <= deleteCount <= available ==> n == deleteCount
    ensures deleteCount > available ==> n == available
    ensures deleteCount < 0 ==> n == 0
  {
    if deleteCount < 0 then 0 else if deleteCount > available then available else deleteCount
  }

  /** The array left behind by `xs.splice(start, deleteCount)`: the removed block is
      the clamped start and at most `deleteCount` elements after it. */
  function Splice<T>(xs: seq<T>, start: int, deleteCount: int): (r: seq<T>)
    ensures var k := SpliceStart(|xs|, start); var n := SpliceCount(|xs| - k, deleteCount);
      |r| == |xs| - n && r[k..] == xs[k + n..]
    ensures |r| <= |xs|
    ensures SpliceStart(|xs|, start) <= |r|
    ensures r[..SpliceStart(|xs|, start)] == xs[..SpliceStart(|xs|, start)]
    ensures deleteCount <= 0 ==> r == xs
    ensures start >= |xs| ==> r == xs
  {
    var k := SpliceStart(|xs|, start);
    var n := SpliceCount(|xs| - k, deleteCount);
    xs[..k] + xs[k + n..]
  }

  /** `xs.splice(i, 1)` on an index that exists: exactly the element at `i` is gone,
      the ones before it keep their positions and the ones after it move down by one. */
  function RemoveAt<T>(xs: seq<T>, i: nat): (r: seq<T>)
    requires i < |xs|
    ensures |r| == |xs| - 1
    ensures forall j :: 0 <= j < i ==> r[j] == xs[j]
    ensures forall j :: i <= j < |r| ==> r[j] == xs[j + 1]
  {
    Splice(xs, i, 1)
  }

  /** Putting `v` back at index `i`: the reference inverse of `RemoveAt`. */
  function InsertAt<T>(xs: seq<T>, i: nat, v: T): (r: seq<T>)
    requires i <= |xs|
    ensures |r| == |xs| + 1 && r[i] == v
  {
    xs[..i] + [v] + xs[i..]
  }

  /** Removing the element at `i` and inserting it again gives back the original list. */
  lemma RemoveAtInverse<T>(xs: seq<T>, i: nat)
    requires i < |xs|
    ensures InsertAt(RemoveAt(xs, i), i, xs[i]) == xs
  {
    var r := InsertAt(RemoveAt(xs, i), i, xs[i]);
    forall j | 0 <= j < |xs|
      ensures r[j] == xs[j]
    {
      if j > i {
        assert r[j] == RemoveAt(xs, i)[j - 1];
      }
    }
  }

  /** Removing one element at a valid index removes exactly that occurrence:
      the remaining points are the original ones, less one copy of `xs[i]`. */
  lemma RemoveAtMultiset<T>(xs: seq<T>, i: nat)
    requires i < |xs|
    ensures multiset(RemoveAt(xs, i)) + multiset{xs[i]} == multiset(xs)
  {
    assert xs == xs[..i] + [xs[i]] + xs[i + 1..];
    assert RemoveAt(xs, i) == xs[..i] + xs[i + 1..];
  }

  /** `newHintPoints[i] = v` on a copy of the list, for an index that exists:
      the list keeps its length, holds `v` at `i`, and nothing else changes. */
  function UpdateAt<T>(xs: seq<T>, i: nat, v: T): (r: seq<T>)
    requires i < |xs|
    ensures |r| == |xs| && r[i] == v
    ensures forall j :: 0 <= j < |xs| && j != i ==> r[j] == xs[j]
  {
    xs[i := v]
  }
}

=== FILE: segment.dfy ===
/** What the editor sends to and reads from the segmentation service: the payload of
    a segment request, the mask id taken from its response, and the mask overlay URL. */
module Segment {
  import opened Optional
  import opened HintPoints
  import opened Decimal

  /** The argument passed to `segmentImage`: the image id, then the hints with
      `previous_mask_id` (`None` is sent as JSON `null`) and the full point list. */
  datatype SegmentRequest = SegmentRequest(imageId: int, previousMaskId: Option<int>, points: seq<HintPoint>)

  /** The request issued for a point list, if any: none while no image id is known;
      otherwise one for that image, chaining the current mask id (`maskId ?? null`). */
  function RequestFor(imageId: Option<int>, maskId: Option<int>, points: seq<HintPoint>): (r: Option<SegmentRequest>)
    ensures r.Some? <==> imageId.Some?
    ensures r.Some? ==> r.value.imageId == imageId.value && r.value.previousMaskId == maskId && r.value.points == points
  {
    if imageId.Some? then Some(SegmentRequest(imageId.value, maskId, points)) else None
  }

  /** The mask id read from a segment response (`data.at(0)`): its first element,
      absent when the response array is empty. */
  function MaskIdOf(response: seq<int>): (r: Option<int>)
    ensures r.Some? <==> |response| > 0
    ensures r.Some? ==> r.value == response[0]
  {
    Head(response)
  }

  const GetMaskRoute: string := "/api/image/get_mask/"

  /** The template literal `${apiUrl}/api/image/get_mask/${imageId}/${maskId}`. */
  function MaskPath(apiUrl: string, imageId: int, maskId: int): (r: string)
    ensures |apiUrl + GetMaskRoute| < |r| && r[..|apiUrl + GetMaskRoute|] == apiUrl + GetMaskRoute
  {
    var r := apiUrl + GetMaskRoute + IntToDecimal(imageId) + "/" + IntToDecimal(maskId);
    assert r == (apiUrl + GetMaskRoute) + (IntToDecimal(imageId) + "/" + IntToDecimal(maskId));
    r
  }

  /** The memoised overlay URL: defined exactly when both ids are. */
  function MaskUrl(apiUrl: string, imageId: Option<int>, maskId: Option<int>): (r: Option<string>)
    ensures r.Some? <==> imageId.Some? && maskId.Some?
    ensures r.Some? ==> |apiUrl + GetMaskRoute| < |r.value| && r.value[..|apiUrl + GetMaskRoute|] == apiUrl + GetMaskRoute
  {
    if imageId.None? || maskId.None? then None
    else Some(MaskPath(apiUrl, imageId.value, maskId.value))
  }

  /** The index of the first `c` in `s`, or `|s|` when there is none. */
  function IndexOf(s: string, c: char): (k: nat)
    ensures k <= |s|
    ensures forall j :: 0 <= j < k ==> s[j] != c
    ensures k < |s| ==> s[k] == c
  {
    if |s| == 0 then 0 else if s[0] == c then 0 else 1 + IndexOf(s[1..], c)
  }

  /** The reader of mask URLs: the `(imageId, maskId)` pair a URL under `apiUrl` names, if any. */
  function ParseMaskUrl(apiUrl: string, url: string): Option<(int, int)> {
    var prefix := apiUrl + GetMaskRoute;
    if |url| < |prefix| || url[..|prefix|] != prefix then None
    else
      var rest := url[|prefix|..];
      var k := IndexOf(rest, '/');
      if k == |rest| then None
      else
        match (ReadInt(rest[..k]), ReadInt(rest[k + 1..]))
        case (Some(i), Some(m)) => Some((i, m))
        case _ => None
  }

  /** Splitting `a + "/" + b` at its first slash gives back `a` and `b` when `a` has no slash. */
  lemma SplitAtFirstSlash(a: string, b: string)
    requires forall i :: 0 <= i < |a| ==> a[i] != '/'
    ensures var rest := a + "/" + b;
      IndexOf(rest, '/') == |a| && rest[..|a|] == a && rest[|a| + 1..] == b
  {
    var rest := a + "/" + b;
    assert rest[|a|] == '/';
    assert forall j :: 0 <= j < |a| ==> rest[j] == a[j];
  }

  /** Reading a URL made of the route prefix, `a`, a slash and `b` reads `a` and `b`,
      when `a` has no slash. */
  lemma ParseAfterRoute(apiUrl: string, a: string, b: string)
    requires forall i :: 0 <= i < |a| ==> a[i] != '/'
    ensures ParseMaskUrl(apiUrl, (apiUrl + GetMaskRoute) + (a + "/" + b)) ==
      if ReadInt(a).Some? && ReadInt(b).Some? then Some((ReadInt(a).value, ReadInt(b).value)) else None
  {
    var prefix := apiUrl + GetMaskRoute;
    var url := prefix + (a + "/" + b);
    assert url[..|prefix|] == prefix;
    assert url[|prefix|..] == a + "/" + b;
    SplitAtFirstSlash(a, b);
  }

  /** The mask URL names its two ids unambiguously: reading it back gives them. */
  lemma MaskUrlRoundTrip(apiUrl: string, imageId: int, maskId: int)
    ensures ParseMaskUrl(apiUrl, MaskPath(apiUrl, imageId, maskId)) == Some((imageId, maskId))
  {
    var a, b := IntToDecimal(imageId), IntToDecimal(maskId);
    assert MaskPath(apiUrl, imageId, maskId) == (apiUrl + GetMaskRoute) + (a + "/" + b);
    ParseAfterRoute(apiUrl, a, b);
    IntRoundTrip(imageId);
    IntRoundTrip(maskId);
  }

  /** Distinct id pairs give distinct overlay URLs. */
  lemma MaskUrlInjective(apiUrl: string, i1: int, m1: int, i2: int, m2: int)
    requires MaskUrl(apiUrl, Some(i1), Some(m1)) == MaskUrl(apiUrl, Some(i2), Some(m2))
    ensures i1 == i2 && m1 == m2
  {
    MaskUrlRoundTrip(apiUrl, i1, m1);
    MaskUrlRoundTrip(apiUrl, i2, m2);
  }
}
